=== FILE: README.md ===
# PanArea: pan and grid model

A Dafny model of the `PanArea` control of PanableControl. `PanArea` is a WinForms container that
draws a two-layer grid background. The user pans it by dragging with the left mouse button, and
every hosted child control moves with the grid.

The model has four modules:

- `Drawing` (drawing.dfy): integer points and rectangles, ARGB colours, pens, and the abstract
  drawing commands (`Clear`, `Line`, `Rectangle`) that stand in for the `Graphics` calls.
- `GridLayout` (grid_layout.dfy): the grid renderer.
  - The phase of a pattern is `|GridCenter.axis| mod spacing`.
  - The line coordinates of one axis are `phase, phase + s, ...`, strictly below the far edge.
  - `EmitLines` is the stepping loop, proved equal to `PatternLines`.
  - `GridDrawing` is the full ordered command list of one paint: clear, minor vertical, minor
    horizontal, major vertical, major horizontal, then the border.
- `PanControl` (pan_control.dfy): the pan controller as a pure state machine over `PanState`.
  `PanState` holds the grid centre, the drag flag, the previous pointer location and the
  children's bounds. Lemmas about whole event sequences live here: additivity of pans, null pans,
  telescoping drags and gestures, and children staying anchored to the grid.
- `PanableArea` (pan_area.dfy): the `PanArea` class.
  - Its fields are the source's: properties, drag state, grid centre, an array of children and a
    redraw flag.
  - Its property setters, mouse handlers and `PanToLocation` (a loop over the children array)
    update those fields in place.
  - Each method's `ensures` ties the new `State()`/`Style()` to the `PanControl` functions.
  - `DrawGrid` returns exactly `GridDrawing` of the current state.

Some points where the code differs from a prose reading of the control's intent. The model
follows the code:

- A line is drawn only while its coordinate is strictly below `ClientRectangle.Right` (or
  `Bottom`). A 300-wide viewport at grid centre 0 with spacing 20 therefore gets 15 minor
  vertical lines (0 to 280), not 16. The line count is `floor((edge - 1 - phase) / s) + 1`, not
  `floor((edge - phase) / s) + 1` (`LinePositionsExact`, `DefaultViewportScenario`).
- The phase takes `Math.Abs` of the grid centre. Two centres give the same phase exactly when
  their magnitudes differ by a whole number of periods (`PhaseEqualIffMagnitudesDifferByPeriods`);
  in a viewport narrower than the spacing other centres can give the same, empty, set of lines.
  When both centres are on the same side of zero, a whole-period pan is enough
  (`PhasePeriodicWhenNonNegative`). Across zero it is not: -5 and 15 are one period of 20 apart
  but have different phases (`PhaseNotPeriodicAcrossZero`), while -10 and 10 keep theirs
  because their magnitudes are equal (`PhaseAcrossZeroCanMatch`). While the grid centre stays
  non-positive the lines move against the pan, although the children move with it
  (`PhaseOpposesPanWhenNegative`); while it stays non-negative they move with it
  (`PhaseFollowsPanWhenNonNegative`).
- The spacing setters accept any value. With a zero spacing the float remainder that gives the
  phase is NaN, so the first `x < Right` test fails and that pattern draws no lines. With a
  negative spacing the loop steps away from the far edge, so it never ends when the phase is
  below that edge. `DrawGrid` requires both spacings to be positive (see "Left out").
- Whether a paint draws any grid line depends on the phases, not on the viewport's size. It
  draws none exactly when `Right` is at or before the phase of both patterns on the x axis and
  `Bottom` at or before both phases on the y axis (`NoGridLinesIff`). So a small viewport can
  be free of lines at one grid centre and not at another. A viewport that ends at or before the
  origin on both axes never gets lines (`EmptyViewportDrawsNoLines`). A zero-width viewport can
  get zero-length horizontal lines from `(Left, y)` to `(Right, y)`: at grid centre (0,0), a
  0-wide and 40-high viewport gets three of them (`ZeroWidthViewportDrawsDegenerateRows`).
- Setting `MajorGridLineColor` does not request a repaint; the other four setters do.

## Model

| member | source | states |
|---|---|---|
| GridLayout.Phase | PanArea.cs:62-66 | The first line of a pattern lies at `|g| mod s`, which is always in `[0, s)` |
| GridLayout.PhaseOfNegation | PanArea.cs:62-66 | The phase of `-g` equals the phase of `g` |
| GridLayout.PhaseEqualIffMagnitudesDifferByPeriods | PanArea.cs:62-66 | Two grid centres give the same phase if and only if their magnitudes differ by a multiple of the spacing |
| GridLayout.PhasePeriodicWhenNonNegative | PanArea.cs:62-66 | For non-negative centres, the phases are equal if and only if the centres differ by whole periods |
| GridLayout.PhaseNotPeriodicAcrossZero | PanArea.cs:62-66 | -5 and 15 are one period of 20 apart, yet their phases are 5 and 15 |
| GridLayout.PhaseAcrossZeroCanMatch | PanArea.cs:62-66 | -10 and 10 are one period of 20 apart and on opposite sides of zero, yet their phases agree, because their magnitudes are equal |
| GridLayout.PhaseFollowsPanWhenNonNegative | PanArea.cs:62-66 | For a non-negative centre, a pan by d that keeps the centre non-negative moves the phase by +d (mod s), so the lines move with the content |
| GridLayout.PhaseOpposesPanWhenNegative | PanArea.cs:62-66 | For a non-positive centre, a pan by d that keeps the centre non-positive moves the phase by -d (mod s), so the lines move against the content |
| GridLayout.LinePositionsExact | PanArea.cs:71-89 | The i-th coordinate is `phase + i*s` and lies strictly below the edge; the next step `phase + n*s` would reach the edge, so no line is missing; the count is 0 when `edge <= phase`, otherwise `(edge - 1 - phase) / s + 1` |
| GridLayout.LinePositionsIncreasing | PanArea.cs:71-89 | Line coordinates are strictly increasing |
| GridLayout.LinePositionsMembership | PanArea.cs:71-89 | x is a line coordinate if and only if `phase <= x < edge` and `x - phase` is a multiple of s |
| GridLayout.EmitLines | PanArea.cs:71-89 | The stepping loop `for (x = offset; x < edge; x += size)` emits exactly the pattern's lines, in order |
| GridLayout.PatternLinesExact | PanArea.cs:71-89 | The k-th line of a pattern sits at `phase + k*s`; a vertical one spans Top to Bottom, a horizontal one Left to Right |
| GridLayout.GridDrawingOrder | PanArea.cs:57-92 | One paint is: the clear, then minor vertical, minor horizontal, major vertical and major horizontal lines (each block given line by line), then last the border `(X, Y, Width-2, Height-2)` with stroke 2 |
| GridLayout.NoGridLinesIff | PanArea.cs:57-92 | A paint is only the clear and the border if and only if, on each axis, the far edge (`Right` or `Bottom`) is at or before the phase of both the minor and the major pattern |
| GridLayout.EmptyViewportDrawsNoLines | PanArea.cs:57-92 | A viewport that does not extend past the origin gets only the clear and the border |
| GridLayout.ZeroWidthViewportDrawsDegenerateRows | PanArea.cs:57-92 | A 0-wide, 40-high viewport at centre 0 with the default style gets the clear, zero-length horizontal lines at y = 0 and 20 (minor) and y = 0 (major), and the border |
| GridLayout.LinesStableUnderWholePeriodPan | PanArea.cs:62-89 | For non-negative centres a whole-period pan leaves a pattern's line coordinates unchanged |
| GridLayout.DefaultViewportScenario | PanArea.cs:59-89 | For a 300-wide viewport with spacings 20 and 100: minor lines at 0..280 (15), major at 0, 100, 200; at centre 25 the minor lines are at 5..285 |
| PanControl.Pan | PanArea.cs:233-241 | The grid centre and each child's left and top gain exactly `current - previous`; child sizes, the drag flag and the previous location are unchanged |
| PanControl.MouseDown | PanArea.cs:205-213 | A left press sets the drag flag and records the location; any other press changes nothing; the grid and children never change |
| PanControl.MouseMove | PanArea.cs:215-227 | Only while dragging with the left button alone: pan by `location - prevLoc`, then `prevLoc := location`; otherwise nothing changes |
| PanControl.MouseUp | PanArea.cs:199-203 | Any release clears the drag flag and changes nothing else |
| PanControl.PanByAdditive | PanArea.cs:233-241 | Panning by d1 then d2 equals panning once by d1 + d2 |
| PanControl.PanTwiceIsPanOnce | PanArea.cs:233-241 | Two pans leave the grid centre and children where one pan with the summed delta does |
| PanControl.PanNullIsIdentity | PanArea.cs:233-241 | A pan with `current == previous` changes nothing |
| PanControl.RunAppend | PanArea.cs:199-227 | Handling one event sequence and then another is handling their concatenation: events take effect one after another, in arrival order |
| PanControl.LeftDragTelescopes | PanArea.cs:215-241 | While dragging, a run of left moves pans by the last location minus the recorded previous location, and records the last location |
| PanControl.GestureNetPan | PanArea.cs:199-241 | Press, left moves and any release pan the grid and children by the end location (the last move, or the press itself when there is no move) minus the press location, and end the drag |
| PanControl.ClosedGestureIsNull | PanArea.cs:199-241 | A gesture that ends where it was pressed, including a press and release with no move, leaves the grid centre and children unchanged |
| PanControl.PressStartsFresh | PanArea.cs:199-213 | After a release and a new left press, what follows does not depend on the earlier drag state |
| PanControl.MovesWhileIdleChangeNothing | PanArea.cs:215-227 | Without a drag in progress, any pointer moves leave the state unchanged |
| PanControl.StepKeepsAnchored | PanArea.cs:199-241 | Every event keeps each child at its home position displaced by the grid centre |
| PanControl.RunKeepsAnchored | PanArea.cs:199-241 | Every event sequence keeps the children anchored to the grid |
| PanControl.InitialAnchored | PanArea.cs:184 | With the grid centre at the origin, each child is at its home position |
| PanableArea.PanArea.constructor | PanArea.cs:112-189 | Defaults: major CadetBlue, minor AliceBlue, spacings 20 and 100, border Black, no drag, grid centre (0,0) |
| PanableArea.PanArea.SetMajorGridLineColor | PanArea.cs:112-117 | Stores the colour and leaves the redraw flag as it was |
| PanableArea.PanArea.SetMinorGridLineColor | PanArea.cs:119-128 | Stores the colour and requests a redraw; nothing else changes |
| PanableArea.PanArea.SetMinorGridLineSize | PanArea.cs:130-139 | Stores the spacing and requests a redraw; nothing else changes |
| PanableArea.PanArea.SetMajorGridLineSize | PanArea.cs:141-150 | Stores the spacing and requests a redraw; nothing else changes |
| PanableArea.PanArea.SetBorderColor | PanArea.cs:152-161 | Stores the colour and requests a redraw; nothing else changes |
| PanableArea.PanArea.OnMouseUp | PanArea.cs:199-203 | The new state is `MouseUp` of the old one; properties and the redraw flag are unchanged |
| PanableArea.PanArea.OnMouseDown | PanArea.cs:205-213 | The new state is `MouseDown` of the old one; properties and the redraw flag are unchanged |
| PanableArea.PanArea.OnMouseMove | PanArea.cs:215-227 | The new state is `MouseMove` of the old one; a redraw is requested exactly when a pan happened |
| PanableArea.PanArea.PanToLocation | PanArea.cs:233-243 | The children array and the grid centre become `Pan` of the old state; properties unchanged; a redraw is requested |
| PanableArea.PanArea.DrawGrid | PanArea.cs:52-92 | The commands issued are exactly `GridDrawing` of the current grid centre, properties and client rectangle |

## Left out

- PanableArea.PanArea.PanToLocation: does not model the 32-bit wrap-around of `GridCenter` and child coordinates. Integers are unbounded here; the wrap needs a pan of about 2^31 pixels. The phase stops being exact much earlier, see the next two lines.
- PanableArea.PanArea.PanToLocation: is modelled with integer points only. In the code it is a public method taking `PointF`, so other callers can pass fractional points. Each axis's difference is then cast with `(int)`, which truncates toward zero: a delta of 0.5 moves nothing and one of -1.5 moves by -1. Two calls with a delta of 0.5 each therefore move nothing, while one call with 1.0 moves by 1. The additivity of `PanByAdditive` and `PanTwiceIsPanOnce` holds for integer locations only.
- GridLayout.Phase: does not model the overflow exception `Math.Abs` throws for the most negative 32-bit grid centre.
- GridLayout.Phase: does not model the rounding of `Math.Abs(GridCenter)` to `float` before the remainder. Above 2^24 the conversion rounds: for a grid centre of 16777217 and spacing 20 the code computes 16777216 % 20 = 16, while `Phase` gives the exact 17. The model's phase is exact for all grid centres; the code's is exact only up to 2^24 in magnitude.
- PanableArea.PanArea.DrawGrid: the `requires` that both spacings be positive leaves out the two other cases the code allows. A zero spacing gives a NaN phase and that pattern draws no lines. A negative spacing makes the loop run forever when the phase is below the far edge, and draw nothing otherwise.
- Floating point: spacings and line coordinates are integers. The source keeps the spacings as `float`, so a fractional spacing and float rounding in the `x += size` loop are not modelled. When `OnMouseMove` calls `PanToLocation`, the pointer locations are integers (`e.X`, `e.Y`), so the `(int)` casts of their differences are exact on that path.
- `Graphics`, `Pen` and `Brush` objects, antialiasing and compositing settings are not modelled. Drawing is the abstract command list.
- The debug-build overlay that shows the grid centre is not modelled. It depends on font measurement.
- The constructor's `SetStyle`, `InitializeComponent`, `Dispose` and the designer attribute are host plumbing and are left out. The `base.OnMouse*` calls into the host are left out too.
- The control's children are an array of bounds. Enumerating `Controls` is left out. So are the host adding, removing or moving children, and the anchoring lemmas assume it does none of these.
- `Refresh` and `Invalidate` are one `redrawRequested` flag. Paint scheduling and clearing the flag belong to the host.
- The client rectangle and `BackColor` are parameters of `DrawGrid`, because the host owns them.

=== FILE: drawing.dfy ===
// Value types shared by the grid renderer and the pan controller: integer
// points and rectangles, colours, pens, and the abstract drawing commands that
// stand in for the host's Graphics calls.
module Drawing {

  /** An integer point; also used for a displacement between two points. */
  datatype Point = Point(x: int, y: int) {
    function Plus(d: Point): Point { Point(x + d.x, y + d.y) }
    function Minus(o: Point): Point { Point(x - o.x, y - o.y) }
  }

  /** A rectangle given by its origin and size, as the host's client rectangle is. */
  datatype Rect = Rect(x: int, y: int, width: int, height: int) {
    function Left(): int { x }
    function Top(): int { y }
    function Right(): int { x + width }
    function Bottom(): int { y + height }
  }

  /** An ARGB colour. */
  datatype Color = Argb(a: int, r: int, g: int, b: int)

  const CadetBlue := Argb(255, 95, 158, 160)
  const AliceBlue := Argb(255, 240, 248, 255)
  const Black := Argb(255, 0, 0, 0)

  /** A pen: a colour and a stroke width. A pen made from a colour alone is one unit wide. */
  datatype Pen = Pen(color: Color, width: int)

  const ThinStroke := 1

  /** What the renderer asks the drawing surface to do, in order. */
  datatype Command =
    | Clear(color: Color)
    | Line(pen: Pen, x1: int, y1: int, x2: int, y2: int)
    | Rectangle(pen: Pen, x: int, y: int, width: int, height: int)
}

=== FILE: grid_layout.dfy ===
// The grid renderer: where the minor and major lines of each axis fall for a
// given grid centre and viewport, and the order in which the drawing commands
// of one paint are issued.
module GridLayout {
  import opened Drawing

  function Abs(n: int): nat { if n < 0 then -n else n }

  /** Division with remainder has exactly one answer for a positive divisor. */
  lemma DivModUnique(a: int, s: int, q: int, r: int)
    requires s > 0 && 0 <= r < s && a == q * s + r
    ensures a / s == q && a % s == r
  {
    var q0, r0 := a / s, a % s;
    assert a == q0 * s + r0;
    if q0 > q {
      AtLeastOnce(q0 - q, s);
    } else if q0 < q {
      AtLeastOnce(q - q0, s);
    }
  }

  lemma AtLeastOnce(m: int, s: int)
    requires m >= 1 && s > 0
    ensures m * s >= s
  {
    assert m * s == (m - 1) * s + s;
  }

  /** Multiplying by a positive number keeps a strict order, so it can be cancelled. */
  lemma MulStrictCancel(a: int, b: int, s: int)
    requires s > 0 && a * s < b * s
    ensures a < b
  {
    assert (a - b + 1) * s == a * s - b * s + s;
    if a >= b {
      AtLeastOnce(a - b + 1, s);
    }
  }

  /** Adding d before or after taking the remainder gives the same remainder. */
  lemma ModShift(a: int, d: int, s: int)
    requires s > 0
    ensures (a + d) % s == (a % s + d) % s
  {
    var q, r := (a % s + d) / s, (a % s + d) % s;
    assert a % s + d == q * s + r;
    assert a + d == (a / s + q) * s + r;
    DivModUnique(a + d, s, a / s + q, r);
  }

  /** A whole number of periods leaves the remainder alone. */
  lemma ModWholePeriods(a: int, k: int, s: int)
    requires s > 0
    ensures (a + k * s) % s == a % s
  {
    ModShift(a, k * s, s);
    var r := a % s;
    DivModUnique(r + k * s, s, k, r);
  }

  // ---------------------------------------------------------------------------
  // Phase of a pattern
  // ---------------------------------------------------------------------------

  /** The coordinate of the first line of a pattern with the given spacing: |g| mod spacing. */
  function Phase(g: int, spacing: int): (p: int)
    requires spacing > 0
    ensures 0 <= p < spacing
  {
    Abs(g) % spacing
  }

  /** The phase depends on the grid centre only through its magnitude. */
  lemma PhaseOfNegation(g: int, s: int)
    requires s > 0
    ensures Phase(-g, s) == Phase(g, s)
  {
  }

  /** Two grid centres give the same phase exactly when their magnitudes differ by whole periods. */
  lemma PhaseEqualIffMagnitudesDifferByPeriods(g1: int, g2: int, s: int)
    requires s > 0
    ensures Phase(g1, s) == Phase(g2, s) <==> (Abs(g2) - Abs(g1)) % s == 0
  {
    var a1, a2 := Abs(g1), Abs(g2);
    if a1 % s == a2 % s {
      assert a2 - a1 == (a2 / s - a1 / s) * s + 0;
      DivModUnique(a2 - a1, s, a2 / s - a1 / s, 0);
    }
    if (a2 - a1) % s == 0 {
      assert a2 == a1 + ((a2 - a1) / s) * s;
      ModWholePeriods(a1, (a2 - a1) / s, s);
    }
  }

  /** On the non-negative side, panning by whole periods leaves the phase unchanged. */
  lemma PhasePeriodicWhenNonNegative(g1: int, g2: int, s: int)
    requires s > 0 && g1 >= 0 && g2 >= 0
    ensures Phase(g1, s) == Phase(g2, s) <==> (g2 - g1) % s == 0
  {
    PhaseEqualIffMagnitudesDifferByPeriods(g1, g2, s);
  }

  /** Across zero a whole-period pan can move the phase: -5 and 15 are one period of 20 apart. */
  lemma PhaseNotPeriodicAcrossZero()
    ensures (15 - -5) % 20 == 0 && Phase(-5, 20) == 5 && Phase(15, 20) == 15
  {
  }

  /** Across zero the phase is kept only when the magnitudes agree modulo the spacing, as for -10 and 10. */
  lemma PhaseAcrossZeroCanMatch()
    ensures (10 - -10) % 20 == 0 && Phase(-10, 20) == Phase(10, 20) == 10
  {
  }

  /** For a non-negative centre the lines move with the pan: phase shifts by +d. */
  lemma PhaseFollowsPanWhenNonNegative(g: int, d: int, s: int)
    requires s > 0 && g >= 0 && g + d >= 0
    ensures Phase(g + d, s) == (Phase(g, s) + d) % s
  {
    ModShift(g, d, s);
  }

  /** For a non-positive centre the lines move against the pan: phase shifts by -d. */
  lemma PhaseOpposesPanWhenNegative(g: int, d: int, s: int)
    requires s > 0 && g <= 0 && g + d <= 0
    ensures Phase(g + d, s) == (Phase(g, s) - d) % s
  {
    ModShift(-g, -d, s);
  }

  // ---------------------------------------------------------------------------
  // Line coordinates along one axis
  // ---------------------------------------------------------------------------

  /** How many lines a pattern starting at `first` with the given spacing has before `edge`. */
  function LineCount(first: int, spacing: int, edge: int): nat
    requires spacing > 0
  {
    if edge <= first then 0 else (edge - 1 - first) / spacing + 1
  }

  /** The coordinates first, first + spacing, ... that lie strictly below edge. */
  function LinePositions(first: int, spacing: int, edge: int): seq<int>
    requires spacing > 0
    decreases edge - first
  {
    if first < edge then [first] + LinePositions(first + spacing, spacing, edge) else []
  }

  /**
   * The i-th line is i spacings past the first and lies below the edge; one more step would
   * reach the edge, so no line is missing; and there are LineCount of them.
   */
  lemma {:induction false} LinePositionsExact(first: int, s: int, edge: int)
    requires s > 0
    ensures var ps := LinePositions(first, s, edge);
            |ps| == LineCount(first, s, edge)
            && (forall i :: 0 <= i < |ps| ==> ps[i] == first + i * s && ps[i] < edge)
            && first + |ps| * s >= edge
    decreases edge - first
  {
    if first < edge {
      var ps, rest := LinePositions(first, s, edge), LinePositions(first + s, s, edge);
      LinePositionsExact(first + s, s, edge);
      assert ps == [first] + rest;
      forall i | 1 <= i < |ps| ensures ps[i] == first + i * s {
        assert ps[i] == rest[i - 1] == first + s + (i - 1) * s;
      }
      assert first + |ps| * s == first + s + |rest| * s;
      var n := edge - 1 - first;
      if first + s < edge {
        DivModUnique(n, s, (n - s) / s + 1, (n - s) % s);
      } else {
        DivModUnique(n, s, 0, n);
      }
    }
  }

  /** Line coordinates are strictly increasing. */
  lemma LinePositionsIncreasing(first: int, s: int, edge: int)
    requires s > 0
    ensures var ps := LinePositions(first, s, edge);
            forall i, j :: 0 <= i < j < |ps| ==> ps[i] < ps[j]
  {
    var ps := LinePositions(first, s, edge);
    LinePositionsExact(first, s, edge);
    forall i, j | 0 <= i < j < |ps| ensures ps[i] < ps[j] {
      AtLeastOnce(j - i, s);
      assert ps[j] - ps[i] == j * s - i * s == (j - i) * s;
    }
  }

  /** A coordinate is a line exactly when it is at or past the phase, below the edge, and a whole number of spacings from the phase. */
  lemma LinePositionsMembership(first: int, s: int, edge: int, x: int)
    requires s > 0
    ensures x in LinePositions(first, s, edge) <==> first <= x < edge && (x - first) % s == 0
  {
    if x in LinePositions(first, s, edge) {
      LinePositionsOnGrid(first, s, edge, x);
    }
    if first <= x < edge && (x - first) % s == 0 {
      GridPointsInLinePositions(first, s, edge, x);
    }
  }

  /** Every line coordinate is a whole number of spacings past the phase. */
  lemma LinePositionsOnGrid(first: int, s: int, edge: int, x: int)
    requires s > 0 && x in LinePositions(first, s, edge)
    ensures first <= x < edge && (x - first) % s == 0
  {
    var ps := LinePositions(first, s, edge);
    LinePositionsExact(first, s, edge);
    var i :| 0 <= i < |ps| && ps[i] == x;
    assert x - first == i * s + 0;
    DivModUnique(x - first, s, i, 0);
  }

  /** Every whole number of spacings past the phase and below the edge is a line coordinate. */
  lemma GridPointsInLinePositions(first: int, s: int, edge: int, x: int)
    requires s > 0 && first <= x < edge && (x - first) % s == 0
    ensures x in LinePositions(first, s, edge)
  {
    var ps := LinePositions(first, s, edge);
    LinePositionsExact(first, s, edge);
    var i := (x - first) / s;
    assert x - first == i * s;
    // Past the last line the next step reaches the edge, so x, below the edge, has index < |ps|.
    assert i < |ps| by {
      var n := |ps|;
      assert first + n * s >= edge > x == first + i * s;
      assert i * s < n * s;
      MulStrictCancel(i, n, s);
    }
    assert ps[i] == x;
  }

  // ---------------------------------------------------------------------------
  // Line commands
  // ---------------------------------------------------------------------------

  datatype Axis = Vertical | Horizontal

  /** Vertical lines stop short of the right edge, horizontal ones short of the bottom edge. */
  function FarEdge(axis: Axis, view: Rect): int {
    match axis
    case Vertical => view.Right()
    case Horizontal => view.Bottom()
  }

  /** A vertical line spans top to bottom; a horizontal one spans left to right. */
  function LineAt(axis: Axis, pen: Pen, pos: int, view: Rect): Command {
    match axis
    case Vertical => Line(pen, pos, view.Top(), pos, view.Bottom())
    case Horizontal => Line(pen, view.Left(), pos, view.Right(), pos)
  }

  function Strokes(axis: Axis, pen: Pen, ps: seq<int>, view: Rect): seq<Command> {
    seq(|ps|, i requires 0 <= i < |ps| => LineAt(axis, pen, ps[i], view))
  }

  /** The lines of one pattern along one axis, starting at the phase. */
  function PatternLines(axis: Axis, pen: Pen, phase: int, spacing: int, view: Rect): seq<Command>
    requires spacing > 0
  {
    Strokes(axis, pen, LinePositions(phase, spacing, FarEdge(axis, view)), view)
  }

  /** The loop of the renderer: step from the phase by the spacing while below the far edge. */
  method EmitLines(axis: Axis, pen: Pen, phase: int, spacing: int, view: Rect) returns (lines: seq<Command>)
    requires spacing > 0
    ensures lines == PatternLines(axis, pen, phase, spacing, view)
  {
    var edge := FarEdge(axis, view);
    lines := [];
    ghost var drawn: seq<int> := [];
    var pos := phase;
    while pos < edge
      invariant drawn + LinePositions(pos, spacing, edge) == LinePositions(phase, spacing, edge)
      invariant lines == Strokes(axis, pen, drawn, view)
      decreases edge - pos
    {
      lines := lines + [LineAt(axis, pen, pos, view)];
      drawn := drawn + [pos];
      pos := pos + spacing;
    }
  }

  /** The k-th line of a pattern sits k spacings past the phase; there are LineCount of them. */
  lemma PatternLinesExact(axis: Axis, pen: Pen, phase: int, s: int, view: Rect)
    requires s > 0
    ensures |PatternLines(axis, pen, phase, s, view)| == LineCount(phase, s, FarEdge(axis, view))
    ensures forall k :: 0 <= k < |PatternLines(axis, pen, phase, s, view)| ==>
              PatternLines(axis, pen, phase, s, view)[k] == LineAt(axis, pen, phase + k * s, view)
  {
    LinePositionsExact(phase, s, FarEdge(axis, view));
  }

  // ---------------------------------------------------------------------------
  // One paint
  // ---------------------------------------------------------------------------

  /** The two line patterns and the border colour. */
  datatype GridStyle = GridStyle(minorColor: Color, minorSize: int, majorColor: Color, majorSize: int, borderColor: Color) {
    predicate Drawable() { minorSize > 0 && majorSize > 0 }
  }

  const BorderStroke := 2

  /** The border: the viewport's origin, shrunk by the stroke width, drawn with a two-unit pen. */
  function Border(color: Color, view: Rect): Command {
    Rectangle(Pen(color, BorderStroke), view.x, view.y, view.width - BorderStroke, view.height - BorderStroke)
  }

  /** One pattern: its vertical lines, then its horizontal lines. */
  function PatternLayer(pen: Pen, spacing: int, center: Point, view: Rect): seq<Command>
    requires spacing > 0
  {
    PatternLines(Vertical, pen, Phase(center.x, spacing), spacing, view)
    + PatternLines(Horizontal, pen, Phase(center.y, spacing), spacing, view)
  }

  /** Everything one paint draws, in order: the clear, the minor pattern, the major pattern, the border. */
  function GridDrawing(center: Point, style: GridStyle, view: Rect, back: Color): seq<Command>
    requires style.Drawable()
  {
    [Clear(back)]
    + PatternLayer(Pen(style.minorColor, ThinStroke), style.minorSize, center, view)
    + PatternLayer(Pen(style.majorColor, ThinStroke), style.majorSize, center, view)
    + [Border(style.borderColor, view)]
  }

  /** Commands offset, offset + 1, ..., offset + n - 1 of cmds are the first n lines of a pattern. */
  ghost predicate LinesAt(cmds: seq<Command>, offset: nat, n: nat, axis: Axis, pen: Pen, phase: int, spacing: int, view: Rect) {
    offset + n <= |cmds| &&
    forall k :: 0 <= k < n ==> cmds[offset + k] == LineAt(axis, pen, phase + k * spacing, view)
  }

  /** Commands offset, offset + 1, ... of cmds are those of block. */
  ghost predicate Embeds(cmds: seq<Command>, offset: nat, block: seq<Command>) {
    offset + |block| <= |cmds| && forall k :: 0 <= k < |block| ==> cmds[offset + k] == block[k]
  }

  lemma BlockLines(cmds: seq<Command>, offset: nat, axis: Axis, pen: Pen, phase: int, s: int, view: Rect)
    requires s > 0 && Embeds(cmds, offset, PatternLines(axis, pen, phase, s, view))
    ensures |PatternLines(axis, pen, phase, s, view)| == LineCount(phase, s, FarEdge(axis, view))
    ensures LinesAt(cmds, offset, LineCount(phase, s, FarEdge(axis, view)), axis, pen, phase, s, view)
  {
    var block := PatternLines(axis, pen, phase, s, view);
    PatternLinesExact(axis, pen, phase, s, view);
    forall k | 0 <= k < |block| ensures cmds[offset + k] == LineAt(axis, pen, phase + k * s, view) {
      assert cmds[offset + k] == block[k];
    }
  }

  lemma LayerLines(cmds: seq<Command>, offset: nat, pen: Pen, s: int, center: Point, view: Rect)
    requires s > 0 && Embeds(cmds, offset, PatternLayer(pen, s, center, view))
    ensures var px, py := Phase(center.x, s), Phase(center.y, s);
            var nx, ny := LineCount(px, s, view.Right()), LineCount(py, s, view.Bottom());
            |PatternLayer(pen, s, center, view)| == nx + ny
            && LinesAt(cmds, offset, nx, Vertical, pen, px, s, view)
            && LinesAt(cmds, offset + nx, ny, Horizontal, pen, py, s, view)
  {
    var px, py := Phase(center.x, s), Phase(center.y, s);
    var v, h := PatternLines(Vertical, pen, px, s, view), PatternLines(Horizontal, pen, py, s, view);
    PatternLinesExact(Vertical, pen, px, s, view);
    var nx := LineCount(px, s, view.Right());
    var layer := PatternLayer(pen, s, center, view);
    assert layer == v + h && |v| == nx;
    forall k | 0 <= k < |v| ensures cmds[offset + k] == v[k] {
      assert layer[k] == v[k];
    }
    forall k | 0 <= k < |h| ensures cmds[offset + nx + k] == h[k] {
      assert layer[nx + k] == h[k];
    }
    BlockLines(cmds, offset, Vertical, pen, px, s, view);
    BlockLines(cmds, offset + nx, Horizontal, pen, py, s, view);
  }

  /**
   * The draw order: a clear, the minor vertical lines, the minor horizontal lines, the major
   * vertical lines, the major horizontal lines, and last the border. Each vertical line spans
   * the viewport from top to bottom, each horizontal one from left to right.
   */
  lemma GridDrawingOrder(center: Point, style: GridStyle, view: Rect, back: Color)
    requires style.Drawable()
    ensures var cmds := GridDrawing(center, style, view, back);
            var minor, major := style.minorSize, style.majorSize;
            var minorPen, majorPen := Pen(style.minorColor, ThinStroke), Pen(style.majorColor, ThinStroke);
            var mx, my := Phase(center.x, minor), Phase(center.y, minor);
            var jx, jy := Phase(center.x, major), Phase(center.y, major);
            var nmx, nmy := LineCount(mx, minor, view.Right()), LineCount(my, minor, view.Bottom());
            var njx, njy := LineCount(jx, major, view.Right()), LineCount(jy, major, view.Bottom());
            |cmds| == 2 + nmx + nmy + njx + njy
            && cmds[0] == Clear(back)
            && LinesAt(cmds, 1, nmx, Vertical, minorPen, mx, minor, view)
            && LinesAt(cmds, 1 + nmx, nmy, Horizontal, minorPen, my, minor, view)
            && LinesAt(cmds, 1 + nmx + nmy, njx, Vertical, majorPen, jx, major, view)
            && LinesAt(cmds, 1 + nmx + nmy + njx, njy, Horizontal, majorPen, jy, major, view)
            && cmds[|cmds| - 1] == Rectangle(Pen(style.borderColor, 2), view.x, view.y, view.width - 2, view.height - 2)
  {
    var minorPen, majorPen := Pen(style.minorColor, ThinStroke), Pen(style.majorColor, ThinStroke);
    var minorLayer := PatternLayer(minorPen, style.minorSize, center, view);
    var majorLayer := PatternLayer(majorPen, style.majorSize, center, view);
    var cmds := GridDrawing(center, style, view, back);
    var n := |minorLayer|;
    assert cmds == [Clear(back)] + minorLayer + majorLayer + [Border(style.borderColor, view)];
    assert Embeds(cmds, 1, minorLayer);
    assert Embeds(cmds, 1 + n, majorLayer);
    LayerLines(cmds, 1, minorPen, style.minorSize, center, view);
    LayerLines(cmds, 1 + n, majorPen, style.majorSize, center, view);
  }

  /** A viewport with no extent past the origin gets no grid lines, only the clear and the border. */
  lemma EmptyViewportDrawsNoLines(center: Point, style: GridStyle, view: Rect, back: Color)
    requires style.Drawable() && view.Right() <= 0 && view.Bottom() <= 0
    ensures GridDrawing(center, style, view, back) == [Clear(back), Border(style.borderColor, view)]
  {
  }

  /**
   * A paint draws no grid lines at all exactly when, on each axis, the far edge is at or
   * before the phase of both patterns: every loop then fails its first test.
   */
  lemma NoGridLinesIff(center: Point, style: GridStyle, view: Rect, back: Color)
    requires style.Drawable()
    ensures GridDrawing(center, style, view, back) == [Clear(back), Border(style.borderColor, view)]
        <==> view.Right() <= Phase(center.x, style.minorSize) && view.Right() <= Phase(center.x, style.majorSize)
             && view.Bottom() <= Phase(center.y, style.minorSize) && view.Bottom() <= Phase(center.y, style.majorSize)
  {
    GridDrawingOrder(center, style, view, back);
  }

  /**
   * A viewport of width 0 and height 40 is not empty to the loops: the vertical ones draw
   * nothing, but the horizontal ones still draw zero-length lines at y = 0 and y = 20 (minor)
   * and y = 0 (major), each from (0, y) to (0, y).
   */
  lemma ZeroWidthViewportDrawsDegenerateRows()
    ensures var minorPen, majorPen := Pen(AliceBlue, ThinStroke), Pen(CadetBlue, ThinStroke);
            var view := Rect(0, 0, 0, 40);
            GridDrawing(Point(0, 0), GridStyle(AliceBlue, 20, CadetBlue, 100, Black), view, Black)
            == [Clear(Black), Line(minorPen, 0, 0, 0, 0), Line(minorPen, 0, 20, 0, 20),
                Line(majorPen, 0, 0, 0, 0), Border(Black, view)]
  {
    LinePositionsExact(0, 20, 0);
    LinePositionsExact(0, 20, 40);
    LinePositionsExact(0, 100, 0);
    LinePositionsExact(0, 100, 40);
  }

  /** Panning the non-negative grid centre by whole periods of a pattern leaves that pattern's lines in place. */
  lemma LinesStableUnderWholePeriodPan(g1: int, g2: int, s: int, edge: int)
    requires s > 0 && g1 >= 0 && g2 >= 0 && (g2 - g1) % s == 0
    ensures LinePositions(Phase(g1, s), s, edge) == LinePositions(Phase(g2, s), s, edge)
  {
    PhasePeriodicWhenNonNegative(g1, g2, s);
  }

  /**
   * A 300 by 200 viewport with the default spacings: at centre 0 there are minor vertical
   * lines at 0, 20, ..., 280 (fifteen; the line at 300 is on the edge and not drawn) and
   * major ones at 0, 100, 200; at centre 25 the minor ones move to 5, 25, ..., 285.
   */
  lemma DefaultViewportScenario()
    ensures var at0 := LinePositions(Phase(0, 20), 20, 300);
            |at0| == 15 && at0[0] == 0 && at0[14] == 280
    ensures var major := LinePositions(Phase(0, 100), 100, 300);
            |major| == 3 && major[0] == 0 && major[1] == 100 && major[2] == 200
    ensures var at25 := LinePositions(Phase(25, 20), 20, 300);
            |at25| == 15 && at25[0] == 5 && at25[14] == 285
  {
    LinePositionsExact(0, 20, 300);
    LinePositionsExact(0, 100, 300);
    LinePositionsExact(5, 20, 300);
  }
}

=== FILE: pan_area.dfy ===
// The PanArea control: its grid-style properties, its drag state, the
// mouse handlers that update that state in place, the pan that moves every
// child, and the paint that lists the grid's drawing commands.
module PanableArea {
  import opened Drawing
  import opened GridLayout
  import opened PanControl

  const DefaultMinorSize := 20
  const DefaultMajorSize := 100

  class PanArea {
    var majorGridLineColor: Color
    var minorGridLineColor: Color
    var minorGridLineSize: int
    var majorGridLineSize: int
    var borderColor: Color

    var isMouseDownOnGrid: bool
    var mouseLocation: Point
    var gridCenter: Point

    /** The hosted children's bounds; which children there are is up to the host. */
    const children: array<Child>

    /** Set when the control has asked the host to repaint it. */
    var redrawRequested: bool

    /** The pan controller's view of the control. */
    function State(): PanState
      reads this, children
    {
      PanState(gridCenter, isMouseDownOnGrid, mouseLocation, children[..])
    }

    /** The grid renderer's view of the control's properties. */
    function Style(): GridStyle
      reads this
    {
      GridStyle(minorGridLineColor, minorGridLineSize, majorGridLineColor, majorGridLineSize, borderColor)
    }

    /** A new control with the default properties, no drag, and the grid centre at the origin. */
    constructor (initial: seq<Child>)
      ensures fresh(children)
      ensures State() == Initial(initial)
      ensures Style() == GridStyle(AliceBlue, DefaultMinorSize, CadetBlue, DefaultMajorSize, Black)
      ensures !redrawRequested
    {
      majorGridLineColor := CadetBlue;
      minorGridLineColor := AliceBlue;
      minorGridLineSize := DefaultMinorSize;
      majorGridLineSize := DefaultMajorSize;
      borderColor := Black;
      isMouseDownOnGrid := false;
      mouseLocation := Origin;
      gridCenter := Origin;
      children := new Child[|initial|](i requires 0 <= i < |initial| => initial[i]);
      redrawRequested := false;
    }

    // -------------------------------------------------------------------------
    // Properties
    // -------------------------------------------------------------------------

    /** Stores the colour; unlike its siblings this setter does not ask for a repaint. */
    method SetMajorGridLineColor(value: Color)
      modifies this
      ensures Style() == old(Style()).(majorColor := value)
      ensures State() == old(State())
      ensures redrawRequested == old(redrawRequested)
    {
      majorGridLineColor := value;
    }

    method SetMinorGridLineColor(value: Color)
      modifies this
      ensures Style() == old(Style()).(minorColor := value)
      ensures State() == old(State())
      ensures redrawRequested
    {
      minorGridLineColor := value;
      redrawRequested := true;
    }

    /** Stores any spacing, as the property does; only painting needs it positive. */
    method SetMinorGridLineSize(value: int)
      modifies this
      ensures Style() == old(Style()).(minorSize := value)
      ensures State() == old(State())
      ensures redrawRequested
    {
      minorGridLineSize := value;
      redrawRequested := true;
    }

    method SetMajorGridLineSize(value: int)
      modifies this
      ensures Style() == old(Style()).(majorSize := value)
      ensures State() == old(State())
      ensures redrawRequested
    {
      majorGridLineSize := value;
      redrawRequested := true;
    }

    method SetBorderColor(value: Color)
      modifies this
      ensures Style() == old(Style()).(borderColor := value)
      ensures State() == old(State())
      ensures redrawRequested
    {
      borderColor := value;
      redrawRequested := true;
    }

    // -------------------------------------------------------------------------
    // Mouse handling
    // -------------------------------------------------------------------------

    method OnMouseUp(button: Buttons)
      modifies this
      ensures State() == MouseUp(old(State()), button)
      ensures Style() == old(Style()) && redrawRequested == old(redrawRequested)
    {
      isMouseDownOnGrid := false;
    }

    method OnMouseDown(button: Buttons, location: Point)
      modifies this
      ensures State() == MouseDown(old(State()), button, location)
      ensures Style() == old(Style()) && redrawRequested == old(redrawRequested)
    {
      if button == LeftOnly {
        isMouseDownOnGrid := true;
        mouseLocation := location;
      }
    }

    method OnMouseMove(buttons: Buttons, location: Point)
      modifies this, children
      ensures State() == MouseMove(old(State()), buttons, location)
      ensures Style() == old(Style())
      ensures redrawRequested == (old(redrawRequested) || (old(isMouseDownOnGrid) && buttons == LeftOnly))
    {
      if isMouseDownOnGrid {
        if buttons == LeftOnly {
          PanToLocation(location, mouseLocation);
          mouseLocation := location;
        }
      }
    }

    /**
     * Moves every child, then the grid centre, by mousePosition - origin, and asks for a
     * repaint. The drag state and the properties are left alone.
     */
    method PanToLocation(mousePosition: Point, origin: Point)
      modifies this, children
      ensures State() == Pan(old(State()), mousePosition, origin)
      ensures Style() == old(Style())
      ensures redrawRequested
    {
      var d := Delta(mousePosition, origin);
      var i := 0;
      while i < children.Length
        modifies children
        invariant 0 <= i <= children.Length
        invariant forall j :: 0 <= j < i ==> children[j] == Moved(old(children[j]), d)
        invariant forall j :: i <= j < children.Length ==> children[j] == old(children[j])
      {
        children[i] := children[i].(top := children[i].top + d.y);
        children[i] := children[i].(left := children[i].left + d.x);
        i := i + 1;
      }
      assert children[..] == MovedAll(old(children[..]), d);
      gridCenter := Point(gridCenter.x + d.x, gridCenter.y + d.y);
      redrawRequested := true;
    }

    // -------------------------------------------------------------------------
    // Painting
    // -------------------------------------------------------------------------

    /** The commands of one paint of the given client rectangle, in the order they are issued. */
    method DrawGrid(view: Rect, backColor: Color) returns (cmds: seq<Command>)
      requires minorGridLineSize > 0 && majorGridLineSize > 0
      ensures cmds == GridDrawing(gridCenter, Style(), view, backColor)
    {
      cmds := [Clear(backColor)];
      var largeGridSize := majorGridLineSize;
      var smallGridSize := minorGridLineSize;
      var smallXOffset := Phase(gridCenter.x, smallGridSize);
      var largeXOffset := Phase(gridCenter.x, largeGridSize);
      var smallYOffset := Phase(gridCenter.y, smallGridSize);
      var largeYOffset := Phase(gridCenter.y, largeGridSize);
      var smallGridPen := Pen(minorGridLineColor, ThinStroke);
      var largeGridPen := Pen(majorGridLineColor, ThinStroke);

      var lines := EmitLines(Vertical, smallGridPen, smallXOffset, smallGridSize, view);
      cmds := cmds + lines;
      lines := EmitLines(Horizontal, smallGridPen, smallYOffset, smallGridSize, view);
      cmds := cmds + lines;
      lines := EmitLines(Vertical, largeGridPen, largeXOffset, largeGridSize, view);
      cmds := cmds + lines;
      lines := EmitLines(Horizontal, largeGridPen, largeYOffset, largeGridSize, view);
      cmds := cmds + lines;

      cmds := cmds + [Border(borderColor, view)];
    }
  }

  /**
   * A client of the control: a child at (10, 10) under a drag from (100, 100) to (95, 108)
   * ends at (5, 18) and the grid centre moves by the same (-5, 8).
   */
  method DragOneChild() {
    var area := new PanArea([Child(10, 10, 30, 20)]);
    area.OnMouseDown(LeftOnly, Point(100, 100));
    area.OnMouseMove(LeftOnly, Point(95, 108));
    assert area.State().children[0] == Child(5, 18, 30, 20);
    assert area.gridCenter == Point(-5, 8);
  }

  /** A client: moving with a second button held as well does not pan; any release ends the drag. */
  method ChordDoesNotPan() {
    var area := new PanArea([]);
    area.OnMouseDown(LeftOnly, Point(100, 100));
    var both: Buttons := {Left, Right};
    assert Right in both && Right !in LeftOnly;
    area.OnMouseMove(both, Point(0, 0));
    assert area.gridCenter == Origin && area.isMouseDownOnGrid;
    area.OnMouseUp({Right});
    assert !area.isMouseDownOnGrid;
  }
}

=== FILE: pan_control.dfy ===
// The pan controller as a state machine over values: the grid centre, the
// drag flag, the previous pointer location and the children's bounds, driven
// by mouse-down, mouse-move and mouse-up events.
module PanControl {
  import opened Drawing

  /** The host's mouse buttons. An event carries the set of buttons it concerns or that are held. */
  datatype MouseButton = Left | Right | Middle | XButton1 | XButton2

  type Buttons = set<MouseButton>

  const LeftOnly: Buttons := {Left}

  /** A child element: its top-left corner and its size. */
  datatype Child = Child(left: int, top: int, width: int, height: int)

  function Moved(c: Child, d: Point): Child {
    c.(top := c.top + d.y).(left := c.left + d.x)
  }

  function MovedAll(cs: seq<Child>, d: Point): seq<Child> {
    seq(|cs|, i requires 0 <= i < |cs| => Moved(cs[i], d))
  }

  /** Everything the controller reads and writes. */
  datatype PanState = PanState(gridCenter: Point, dragging: bool, prevLoc: Point, children: seq<Child>)

  const Origin := Point(0, 0)

  /** The state of a freshly created control hosting the given children. */
  function Initial(children: seq<Child>): PanState {
    PanState(Origin, false, Origin, children)
  }

  /** The displacement between two pointer locations. */
  function Delta(current: Point, previous: Point): Point {
    current.Minus(previous)
  }

  function PanBy(s: PanState, d: Point): PanState {
    s.(gridCenter := s.gridCenter.Plus(d), children := MovedAll(s.children, d))
  }

  /** Moves the grid centre and every child by current - previous; the drag state stays. */
  function Pan(s: PanState, current: Point, previous: Point): (t: PanState)
    ensures t.gridCenter.x == s.gridCenter.x + (current.x - previous.x)
    ensures t.gridCenter.y == s.gridCenter.y + (current.y - previous.y)
    ensures |t.children| == |s.children|
    ensures forall i :: 0 <= i < |s.children| ==>
              t.children[i].left == s.children[i].left + (current.x - previous.x) &&
              t.children[i].top == s.children[i].top + (current.y - previous.y) &&
              t.children[i].width == s.children[i].width &&
              t.children[i].height == s.children[i].height
    ensures t.dragging == s.dragging && t.prevLoc == s.prevLoc
  {
    PanBy(s, Delta(current, previous))
  }

  /** A left press starts a drag at the pointer; any other press changes nothing. */
  function MouseDown(s: PanState, button: Buttons, location: Point): (t: PanState)
    ensures button == LeftOnly ==> t.dragging && t.prevLoc == location
    ensures button != LeftOnly ==> t == s
    ensures t.gridCenter == s.gridCenter && t.children == s.children
  {
    if button == LeftOnly then s.(dragging := true, prevLoc := location) else s
  }

  /** While dragging with the left button alone held, pan by the pointer's move and remember the pointer. */
  function MouseMove(s: PanState, buttons: Buttons, location: Point): (t: PanState)
    ensures s.dragging && buttons == LeftOnly ==>
              t == Pan(s, location, s.prevLoc).(prevLoc := location)
    ensures !(s.dragging && buttons == LeftOnly) ==> t == s
    ensures t.dragging == s.dragging
  {
    if s.dragging then
      if buttons == LeftOnly then Pan(s, location, s.prevLoc).(prevLoc := location) else s
    else s
  }

  /** Any release ends the drag and changes nothing else. */
  function MouseUp(s: PanState, button: Buttons): (t: PanState)
    ensures !t.dragging
    ensures t.gridCenter == s.gridCenter && t.prevLoc == s.prevLoc && t.children == s.children
  {
    s.(dragging := false)
  }

  datatype Event =
    | Down(button: Buttons, location: Point)
    | Move(buttons: Buttons, location: Point)
    | Up(button: Buttons)

  function Step(s: PanState, e: Event): PanState {
    match e
    case Down(b, loc) => MouseDown(s, b, loc)
    case Move(b, loc) => MouseMove(s, b, loc)
    case Up(b) => MouseUp(s, b)
  }

  /** Events are handled strictly in arrival order. */
  function Run(s: PanState, events: seq<Event>): PanState
    decreases |events|
  {
    if events == [] then s else Run(Step(s, events[0]), events[1..])
  }

  /** Pointer moves with the left button alone held, one per location. */
  function LeftMoves(locations: seq<Point>): seq<Event> {
    seq(|locations|, i requires 0 <= i < |locations| => Move(LeftOnly, locations[i]))
  }

  // ---------------------------------------------------------------------------
  // Properties of a pan
  // ---------------------------------------------------------------------------

  lemma MovedAllComposes(cs: seq<Child>, d1: Point, d2: Point)
    ensures MovedAll(MovedAll(cs, d1), d2) == MovedAll(cs, d1.Plus(d2))
  {
    var lhs, rhs := MovedAll(MovedAll(cs, d1), d2), MovedAll(cs, d1.Plus(d2));
    forall i | 0 <= i < |cs| ensures lhs[i] == rhs[i] { }
  }

  /** Panning by d1 and then by d2 is panning once by d1 + d2. */
  lemma PanByAdditive(s: PanState, d1: Point, d2: Point)
    ensures PanBy(PanBy(s, d1), d2) == PanBy(s, d1.Plus(d2))
  {
    MovedAllComposes(s.children, d1, d2);
  }

  /** Two pans whose deltas are d1 and d2 leave the same grid centre and children as one pan with d1 + d2. */
  lemma PanTwiceIsPanOnce(s: PanState, c1: Point, p1: Point, c2: Point, p2: Point)
    ensures var twice := Pan(Pan(s, c1, p1), c2, p2);
            var once := PanBy(s, Delta(c1, p1).Plus(Delta(c2, p2)));
            twice.gridCenter == once.gridCenter && twice.children == once.children
  {
    PanByAdditive(s, Delta(c1, p1), Delta(c2, p2));
  }

  /** A pan whose pointer has not moved changes nothing. */
  lemma PanNullIsIdentity(s: PanState, p: Point)
    ensures Pan(s, p, p) == s
  {
    var t := Pan(s, p, p);
    assert t.children == s.children;
  }

  // ---------------------------------------------------------------------------
  // Gestures
  // ---------------------------------------------------------------------------

  lemma {:induction false} RunAppend(s: PanState, a: seq<Event>, b: seq<Event>)
    ensures Run(s, a + b) == Run(Run(s, a), b)
    decreases |a|
  {
    if a == [] {
      assert a + b == b;
    } else {
      assert (a + b)[0] == a[0] && (a + b)[1..] == a[1..] + b;
      RunAppend(Step(s, a[0]), a[1..], b);
    }
  }

  /**
   * While dragging, a run of left-button moves telescopes: the grid centre and the children
   * move by the last location minus the location the drag last recorded, which becomes the last location.
   */
  lemma {:induction false} LeftDragTelescopes(s: PanState, locations: seq<Point>)
    requires s.dragging && |locations| > 0
    ensures var last := locations[|locations| - 1];
            Run(s, LeftMoves(locations)) == PanBy(s, Delta(last, s.prevLoc)).(prevLoc := last)
    decreases |locations|
  {
    var first := locations[0];
    var s1 := Step(s, Move(LeftOnly, first));
    assert s1 == PanBy(s, Delta(first, s.prevLoc)).(prevLoc := first);
    assert LeftMoves(locations)[1..] == LeftMoves(locations[1..]);
    if |locations| > 1 {
      var rest := locations[1..];
      var last := locations[|locations| - 1];
      LeftDragTelescopes(s1, rest);
      PanByAdditive(s, Delta(first, s.prevLoc), Delta(last, first));
      assert Delta(first, s.prevLoc).Plus(Delta(last, first)) == Delta(last, s.prevLoc);
    }
  }

  /** Where a gesture's pointer ends: at its last move, or where it was pressed if it did not move. */
  function EndOf(press: Point, locations: seq<Point>): Point {
    if locations == [] then press else locations[|locations| - 1]
  }

  /**
   * One whole gesture (a left press, left-button moves, any release) moves the grid centre and
   * every child by the pointer's end location minus the press location, and ends the drag.
   */
  lemma GestureNetPan(s: PanState, press: Point, locations: seq<Point>, release: Buttons)
    ensures var last := EndOf(press, locations);
            var t := Run(s, [Down(LeftOnly, press)] + LeftMoves(locations) + [Up(release)]);
            t == PanBy(s, Delta(last, press)).(dragging := false, prevLoc := last)
  {
    var down := MouseDown(s, LeftOnly, press);
    RunAppend(s, [Down(LeftOnly, press)], LeftMoves(locations));
    RunAppend(s, [Down(LeftOnly, press)] + LeftMoves(locations), [Up(release)]);
    assert Run(s, [Down(LeftOnly, press)]) == down;
    if locations == [] {
      assert LeftMoves(locations) == [];
      PanNullIsIdentity(s, press);
    } else {
      LeftDragTelescopes(down, locations);
    }
  }

  /** A gesture that ends where it was pressed leaves the grid centre and the children where they were. */
  lemma ClosedGestureIsNull(s: PanState, press: Point, locations: seq<Point>, release: Buttons)
    requires EndOf(press, locations) == press
    ensures var t := Run(s, [Down(LeftOnly, press)] + LeftMoves(locations) + [Up(release)]);
            t.gridCenter == s.gridCenter && t.children == s.children
  {
    GestureNetPan(s, press, locations, release);
    PanNullIsIdentity(s, press);
  }

  /**
   * After a release, the next gesture pans from its own press location: what the earlier
   * gesture left behind in the drag state has no effect.
   */
  lemma PressStartsFresh(s1: PanState, s2: PanState, release: Buttons, press: Point, later: seq<Event>)
    requires s1.gridCenter == s2.gridCenter && s1.children == s2.children
    ensures Run(s1, [Up(release), Down(LeftOnly, press)] + later)
         == Run(s2, [Up(release), Down(LeftOnly, press)] + later)
  {
    RunAppend(s1, [Up(release), Down(LeftOnly, press)], later);
    RunAppend(s2, [Up(release), Down(LeftOnly, press)], later);
    assert Run(s1, [Up(release), Down(LeftOnly, press)]) == Run(s2, [Up(release), Down(LeftOnly, press)]);
  }

  /** Without a drag in progress, pointer moves change nothing. */
  lemma {:induction false} MovesWhileIdleChangeNothing(s: PanState, events: seq<Event>)
    requires !s.dragging
    requires forall i :: 0 <= i < |events| ==> events[i].Move?
    ensures Run(s, events) == s
    decreases |events|
  {
    if events != [] {
      MovesWhileIdleChangeNothing(Step(s, events[0]), events[1..]);
    }
  }

  // ---------------------------------------------------------------------------
  // Children stay fixed relative to the grid
  // ---------------------------------------------------------------------------

  /** Each child sits at its home position displaced by the grid centre. */
  ghost predicate Anchored(s: PanState, homes: seq<Child>) {
    s.children == MovedAll(homes, s.gridCenter)
  }

  lemma StepKeepsAnchored(s: PanState, e: Event, homes: seq<Child>)
    requires Anchored(s, homes)
    ensures Anchored(Step(s, e), homes)
  {
    if e.Move? && s.dragging && e.buttons == LeftOnly {
      var d := Delta(e.location, s.prevLoc);
      MovedAllComposes(homes, s.gridCenter, d);
    }
  }

  /** Whatever events arrive, the children keep their places relative to the grid. */
  lemma {:induction false} RunKeepsAnchored(s: PanState, events: seq<Event>, homes: seq<Child>)
    requires Anchored(s, homes)
    ensures Anchored(Run(s, events), homes)
    decreases |events|
  {
    if events != [] {
      StepKeepsAnchored(s, events[0], homes);
      RunKeepsAnchored(Step(s, events[0]), events[1..], homes);
    }
  }

  /** A new control's children are anchored at their initial positions. */
  lemma InitialAnchored(children: seq<Child>)
    ensures Anchored(Initial(children), children)
  {
    var moved := MovedAll(children, Origin);
    forall i | 0 <= i < |children| ensures moved[i] == children[i] { }
  }
}
